=== FILE: README.md ===
# Device lifecycle model

A Dafny model of the decision logic of the DevicesAPI HTTP handlers: creating,
updating, fetching, listing and soft-deleting inventory devices. The handlers
in `web/web.go` are modelled as pure functions. Each one takes an in-memory
store and the decoded request. It returns the store after the request and the
outcome whose HTTP status the handler sends (201, 200, 204, 400, 409 or 500).

The store is a `map<Id, Device>`. A `Device` has the columns of the
`devices` table: `id`, `deleted`, `name`, `brand`, `createdAt` and `state`.
The repository does not show the storage layer's `GetDevices`, `CreateDevice`,
`UpdateDevice`, `DeleteDevice` and `GetDeviceByID`. The model gives them
abstract stand-ins (`Database.QueryActive`, `Insert`, `SaveActive`,
`SoftDelete`, `FindActive`). Reads and writes only see active rows
(`deleted == false`), and no row is ever removed. The name filter of a list
query is a parameter (`NameMatcher`). The handler tests use exact equality.
The route comment says the real filter is a partial match.

Modules:

- `Database` (`database.dfy`): record, store, schema constraints (the state
  enumeration, `varchar(250)` text columns), and the gateway stand-ins.
- `Web` (`web.dfy`): `IsValidState`, the status codes, and the handlers
  `NewDevice`, `UpdateDevice` (with its decision `PlanUpdate`),
  `GetDeviceByID`, `GetDeviceByFilter` and `DeleteDevice`.
- `Lifecycle` (`lifecycle.dfy`): properties that relate calls to each other
  or to the store invariant.
- `UniquePairs` (`unique_pairs.dfy`): the rule that no two active devices
  share a name and brand, and the create and update that enforce it (see
  Findings).
- `Service` (`service.dfy`): route dispatch, runs of requests, and what any
  run preserves; the same for the routes with the corrected create and
  update.
- `LifeStory` (`life_story.dfy`): one device's life through the routes, step
  by step.

`Web.UpdateDevice` and the corrected `UniquePairs.UpdateDeviceUnique` require
that every row is stored under its own id (`KeyedById`). This is how the
primary key is represented in the map, not a condition the service places on
its callers. The route functions in `Service` require the full store
invariant (`WellFormed`), which includes it.

Behaviour of the handlers worth knowing:

- A failed id lookup in fetch, update and delete is answered with 500
  (web/web.go:134-137, 202-205, 262-265).
- Deleting an `In-Use` device is a 400 (web/web.go:267-270). So the story in
  `LifeStory` sets the device back to `Available` before deleting it.
- Update checks the state only after the no-change check and the merge.
  `Lifecycle.InvalidStateNeverStored` shows that on a consistent store this
  still refuses every invalid state.
- A list query whose state filter is not a label of the enumeration fails in
  the store (db/db_test.go:256-259), and the handler answers 500
  (web/web.go:246-249). So does a query whose brand or name filter holds a
  NUL character, which no PostgreSQL text value can hold.
- Name and brand are `varchar(250)` columns (db/db.go:21-22). Following
  section 8.3 of the PostgreSQL documentation (Character Types), a longer
  value is refused unless its excess characters are all spaces, in which
  case it is cut to 250 characters; a value with a NUL character is refused
  (`Database.ColumnText`). An update to such a space-padded name answers 200
  with the name as sent and stores it cut (`Lifecycle.TrailingSpacesAreCut`).
  A create with one writes the cut row, but its read-back filters on the
  name as sent and, with exact or substring matching, misses it, so the
  answer is 500 with the row stored
  (`Lifecycle.TrailingSpacesCreateFailsReadBack`).
- Create's duplicate probe goes through the list query's name filter. With a
  partial-match filter, it refuses a requested name that is contained in the
  name of an active device of the same brand: "Phone" is refused while
  "Phone1" is active (`LifeStory.PartialMatchConflictStep`). With exact
  matching it is the exact pair check (`Lifecycle.ExactConflictIff`).

## Model

| member | source | states |
|---|---|---|
| Web.IsValidState | web/web.go:28-35 | a state is valid exactly when it is one of the labels of the schema's `device_state` enumeration; the empty string is never valid |
| Lifecycle.StateCheckExamples | web/web_test.go:57-78 | the three labels are valid; the empty string, "available", "InUse", "In-Use " and "Unknown" are not |
| Database.QueryActive | web/web.go:214-224 | a list query returns exactly the active rows whose brand and state equal the given filters (when present) and whose name the matcher accepts |
| Database.FindActive | db/db_test.go:194-205 | a lookup by id finds the stored row exactly when it exists and is not deleted |
| Database.ColumnText | db/db.go:21-22 | a `varchar(250)` column keeps a value of at most 250 characters as it is, cuts a longer one whose excess is all spaces to its first 250 characters, and refuses any other longer value and every value with a NUL; what it keeps fits the column and is a prefix of the value |
| Database.StoredRow | db/db.go:17-24 | the row the table keeps has name and brand as their columns keep them and every other field as given; it exists exactly when both columns accept their text, and a row whose text fits is kept unchanged |
| Database.ColumnTextIdempotent | db/db.go:21-22 | what a column keeps it keeps unchanged when stored again |
| Database.Insert | model/database/database.go:9-16 | an insert succeeds exactly when the key is unused and both text columns accept their value; it then adds only that row, as the columns keep it |
| Database.SaveActive | db/db_test.go:152-163 | an update succeeds exactly when the row is active and both text columns accept their value; it replaces only that row, as the columns keep it; otherwise no row changes (an unknown key is reported as "no device found") |
| Database.SoftDelete | db/db_test.go:282-290 | a soft delete succeeds exactly when the row is active; it then sets only that row's `deleted` flag and keeps the row |
| Database.ContainsName | web/web.go:218 | a substring match: it accepts exactly when the pattern occurs at some position of the name |
| Database.ContainsNameIsReflexive | web/web.go:218 | the partial (substring) name match accepts every name as a match for itself |
| Web.Status | web/web.go:66-280 | every outcome maps to one of 200, 201, 204, 400, 409, 500, and it is a success code exactly when the outcome is not a failure |
| Web.NewDevice | web/web.go:66-123 | missing name, brand or state gives 400 with no change; then an invalid state gives 400; a NUL in name or brand makes the store refuse the probe (500, no change); a conflict (409, no change) happens exactly when the duplicate probe finds an active device with that brand and matching name, whatever its state; a refused insert is 500 with no change; a changed store holds exactly one new row, the record as its columns keep it, and that happens exactly on 201 or on a read-back that finds nothing (500); a 201 returns the stored row, the only one the read-back finds |
| Web.PlanUpdate | web/web.go:140-185 | an in-use stored device with a differing non-empty name or brand is rejected, whatever the requested state; the plan keeps the record exactly when no non-empty field differs; an invalid state is rejected only when some change is pending and the freeze did not apply; a write carries each field from the request when non-empty, otherwise from the stored record, with id, createdAt and deleted untouched |
| Web.UpdateDevice | web/web.go:125-197 | a failed lookup gives 500; otherwise the plan's rejection, keep or write is carried out; a write stores the merged record as its columns keep it and answers 200 with the merged record, or 500 when a column refuses its text; no other record changes; every failure leaves the store as it was; after a 200 a fetch finds the device, and finds exactly the reply when its text fits the columns |
| Web.GetDeviceByID | web/web.go:199-212 | fetch returns the stored row with 200 exactly when it is active, otherwise 500, and never changes the store |
| Web.GetDeviceByFilter | web/web.go:242-255 | a state filter outside the enumeration, or a NUL in the brand or name filter, is a store error answered with 500; otherwise the listing contains exactly the stored active rows the filters select; the store never changes |
| Web.DeleteDevice | web/web.go:258-280 | a failed lookup gives 500; an in-use device gives 400; every other active device is soft-deleted with 204 and nothing else changes |
| Lifecycle.CreateValidationIgnoresStore | web/web.go:73-82 | the required-field and state checks give the same 400 for every store, so they need no lookup |
| Lifecycle.DuplicateCheckIgnoresState | web/web.go:89-97 | two valid requests that differ only in state conflict alike |
| Lifecycle.SamePairConflicts | web/web.go:84-97 | with any matcher that finds a name by itself, an active device with the same name and brand makes create answer 409 with no change |
| Lifecycle.ExactConflictIff | web/web_test.go:28-36 | with exact name matching, create conflicts exactly when an active device has the requested name and brand |
| Lifecycle.CreateSucceeds | web/web.go:99-122 | with a reflexive matcher, a valid request with no duplicate, a fresh key and text that fits is created: 201 with the new row, which is the only change |
| Lifecycle.CreatedIsFetchable | web/web.go:112-122 | the device a create returns is what a fetch of its key returns afterwards |
| Lifecycle.InUseNameAndBrandFrozen | web/web.go:143-150 | no update request changes the name or brand of a device stored as In-Use |
| Lifecycle.InUseStateChangeAllowed | web/web.go:143-185 | an In-Use device whose request keeps name and brand moves to any other valid state, and only its state changes |
| Lifecycle.InvalidStateNeverStored | web/web.go:178-183 | on a consistent store, a non-empty invalid state in an update always gives 400 with no write |
| Lifecycle.NoChangeIsNoWrite | web/web.go:152-169 | a request whose non-empty fields all equal the stored ones returns the stored row with 200 and leaves the store as it was |
| Lifecycle.UpdateIdempotent | web/web.go:152-194 | repeating an update request changes nothing the second time |
| Lifecycle.RenameAccepted | web/web.go:171-196 | a device that is not in use is renamed to any non-empty name its column holds: 200 with the renamed row, and only its name changes |
| Lifecycle.RefusedNameIsStorageError | web/web.go:187-191 | a rename of a device that is not in use to a name its column refuses (over 250 characters with some excess character not a space, or with a NUL) is 500 with no change |
| Lifecycle.TrailingSpacesAreCut | web/web.go:171-196 | a rename to a name over 250 characters whose excess is all spaces answers 200 with the name as sent and stores its first 250 characters |
| Lifecycle.TrailingSpacesCreateFailsReadBack | web/web.go:106-116 | with exact and with substring name matching, a create whose name has only spaces past 250 characters stores the row with the name cut and answers 500 |
| Lifecycle.DeletedIsHidden | web/web.go:258-279 | after a successful delete the row is kept with `deleted` set, and fetch, a second delete and update all fail with 500 |
| Lifecycle.ListedAreFetchable | web/web.go:199-255 | every device a listing returns is what a fetch of its id returns |
| Lifecycle.CreatedIsListed | web/web.go:99-122 | a created device is in the listing of its own brand |
| Lifecycle.DeletedIsUnlisted | web/web.go:272-279 | after a successful delete no listing holds the device |
| Lifecycle.NewDevicePreservesWellFormed | web/web.go:73-110 | create keeps every row keyed by its id, with an enumerated state and a non-empty name and brand that fit their columns |
| Lifecycle.UpdateDevicePreservesWellFormed | web/web.go:171-191 | update keeps the same store invariant (the merge never empties a field, the state check keeps the enumeration) |
| Lifecycle.DeleteDevicePreservesWellFormed | web/web.go:267-277 | delete keeps the same store invariant |
| UniquePairs.NewDevicePreservesUniquePairs | web/web.go:84-97 | with a reflexive matcher, create with a name and brand of at most 250 characters never produces two active devices with the same name and brand |
| UniquePairs.NewDeviceBreaksUniquePairs | web/web.go:84-116 | create as written, given an active device's 250-character name plus a space and its brand, writes a second active row with that pair and answers 500, with exact and with substring matching |
| UniquePairs.NewDeviceUnique | web/web.go:84-122 | the corrected create behaves as the handler for text the columns keep as sent; for a valid request whose text the columns cut it goes on with the text as kept: 409 exactly when the probe on the kept name and brand finds an active row, and otherwise, with a reflexive matcher and a fresh key, 201; its probe saw the pair it writes, and with a reflexive matcher every write answers 201 with the stored row |
| UniquePairs.NewDeviceUniquePreservesUniquePairs | web/web.go:84-97 | with a reflexive matcher, the corrected create never produces two active devices with the same name and brand |
| UniquePairs.DeleteDevicePreservesUniquePairs | web/web.go:267-277 | delete never produces two active devices with the same name and brand |
| UniquePairs.UpdateDeviceBreaksUniquePairs | web/web.go:171-191 | the update handler as written accepts a rename onto another active device's name and brand |
| UniquePairs.UpdateDeviceUnique | web/web.go:84-97 | the corrected update answers 409 with no change exactly for an accepted write whose stored name and brand change onto a pair another active device holds; otherwise it behaves as the handler |
| UniquePairs.UpdateDeviceUniquePreservesUniquePairs | web/web.go:171-191 | the corrected update never produces two active devices with the same name and brand |
| Service.Handle | web/web.go:37-57 | each route, as the router dispatches it, keeps the store invariant, never removes a row or alters a deleted one, and fetch and list change nothing |
| Service.Run | web/web.go:37-57 | over any sequence of requests no row disappears, id and createdAt never change, a soft-deleted row is never touched again, and the store invariant holds |
| Service.HandleCorrected | web/web.go:37-57 | the routes with the corrected create and update keep, in addition, the uniqueness rule when the matcher is reflexive; fetch, list, delete and creates whose text fits the columns are handled as by the routes as written |
| Service.RunCorrected | web/web.go:37-57 | over any sequence of requests through the corrected routes, everything `Service.Run` keeps holds, and so does the uniqueness rule when the matcher is reflexive |
| Service.HandleBreaksUniquePairs | web/web.go:44 | the router as written accepts the rename of the update counterexample with 200 and two active Phone/Acme devices; the corrected routes answer 409 |
| LifeStory.CreateStep | web/web.go:99-122 | creating Phone1/Acme on an empty store gives 201 and the single active row |
| LifeStory.DuplicateStep | web/web_test.go:104-110 | creating the same pair again gives 409 |
| LifeStory.ListStep | db/db_test.go:232-240 | listing brand Acme returns exactly that device |
| LifeStory.InUseStep | web/web.go:152-194 | setting the device's state to In-Use gives 200 and changes only its state |
| LifeStory.RenameStep | web/web.go:143-150 | renaming the device while In-Use gives 400 |
| LifeStory.DeleteInUseStep | web/web.go:267-270 | deleting the device while In-Use gives 400 |
| LifeStory.ReleaseStep | web/web.go:171-194 | setting the state back to Available gives 200 |
| LifeStory.DeleteStep | web/web.go:272-279 | deleting the available device gives 204 and keeps the row with `deleted` set |
| LifeStory.GetStep | web/web.go:199-206 | fetching the deleted device gives 500 |
| LifeStory.InvalidFilterStep | web/web.go:242-249 | listing with the state filter "INVALID_STATE_FOR_ERROR" gives 500 |
| LifeStory.PartialMatchConflictStep | web/web.go:218 | with a substring name filter, creating Phone/Acme while Phone1/Acme is active gives 409 |

## Findings

| source | as written | input that shows it | evidently intended | confidence | as-written member | corrected member |
|---|---|---|---|---|---|---|
| web/web.go:84-116 | create probes for a duplicate with the name as sent, but the `varchar(250)` column cuts trailing spaces past 250 characters before storing | active `a` with a 250-character name N and brand Acme; POST name N plus one space, brand Acme, state Available: the probe finds nothing, the row is stored as N/Acme, the read-back misses it, and the answer is 500 with two active N/Acme devices | the duplicate check holds for the row as stored, and a create that writes a row answers 201 | medium, not executed | UniquePairs.NewDeviceBreaksUniquePairs | UniquePairs.NewDeviceUnique |
| web/web.go:171-191 | update merges name and brand and saves without checking other active devices | active `a` = Phone/Acme and `b` = Tablet/Acme; PUT `b` with name Phone gives 200 and two active Phone/Acme devices | the name-and-brand uniqueness that create enforces (web/web.go:84-97) also holds after updates: such a rename gives 409 | medium, not executed | UniquePairs.UpdateDeviceBreaksUniquePairs | UniquePairs.UpdateDeviceUnique |

`Web.UpdateDevice` is the model of the handler as written, and `Service.Handle`
and `Service.Run` route updates to it, as the router does
(`Service.HandleBreaksUniquePairs`); creates go to `Web.NewDevice`.
`Service.HandleCorrected` routes creates through `UniquePairs.NewDeviceUnique`
and updates through `UniquePairs.UpdateDeviceUnique` instead. Because of that,
`Service.RunCorrected` keeps the uniqueness rule over any sequence of requests.

## Left out

- Web.GetDeviceByFilter: returns every selected row; the `limit` and `start` paging and the result order of the storage layer are not modelled, because that implementation is not shown.
- Web.GetDeviceByFilter: the `strconv.Atoi` parsing of `limit` and `start` and its 400 answers are not modelled; this is library parsing of the query string.
- Database.QueryActive: the real name filter is a parameter; a case-insensitive match (as the trigram index suggests) is not defined here, and `ContainsName` is case-sensitive.
- Request decoding (`ShouldBindJSON`) and its 400 answer are left out; the handlers receive an already decoded body.
- Storage connectivity failures (500 with the driver's message) are left out. The storage errors modelled are an unknown or inactive row, a taken key, text a column refuses, and a list query with a state outside the enumeration or a NUL in a filter.
- Database.FindActive: keys are compared as exact text, in one canonical spelling. The key column is a `uuid` (model/database/database.go:10), so in the store other spellings of the same UUID (upper case, braces) name the same row. A fetch with such a spelling gets 200 from the service but 500 from the model. The model assumes that ids arrive in the store's own spelling.
- Replies carry the storage record. `TranslateToAPI`, `TranslateToDB` and `DeviceList.Total` are part of the model package, which is not part of this model.
- Error message texts are not modelled; `ApiError` names each error kind instead.
- UUID generation and the creation timestamp are parameters of create (`freshId`, `now`), not generated values.
- The check-then-insert race between two concurrent creates is left out; the model is sequential.
- `db.New`, `db.Init` (connection strings, extensions, enum and index creation), `main.go` and the server start-up in `Serve` are I/O and process wiring.
- `newDeviceWithTestDB` in the handler tests is a test copy of the create handler and is not modelled separately.

=== FILE: database.dfy ===
/** The storage side of the device service: the persisted record, the
    schema's state enumeration, and an in-memory stand-in for the persistence
    gateway the HTTP handlers call.

    The store is a map from primary key to record.  Reads only ever see
    active records (`deleted == false`); writes are scoped the same way;
    nothing is ever removed from the map (soft delete). */
module Database {

  datatype Option<+T> = None | Some(value: T)

  /** Primary key of a device.  The service generates it as a UUID and the
      handlers receive it as a URL path segment, so the model keeps it as the
      opaque text of that segment. */
  type Id = string

  /** Creation time, assigned by the store at insertion; opaque to the model. */
  type Timestamp = nat

  /** One row of the `devices` table. */
  datatype Device = Device(
    id: Id,
    deleted: bool,
    name: string,
    brand: string,
    createdAt: Timestamp,
    state: string)

  type Store = map<Id, Device>

  /** The three labels of the `device_state` enumeration type the schema creates. */
  const Available: string := "Available"
  const InUse: string := "In-Use"
  const Inactive: string := "Inactive"

  /** Membership in the schema's `device_state` enumeration. */
  predicate InStateEnum(state: string) {
    state in {Available, InUse, Inactive}
  }

  /** Every record is stored under its own primary key. */
  ghost predicate KeyedById(s: Store) {
    forall id :: id in s ==> s[id].id == id
  }

  /** Name and brand are `varchar(250)` columns. */
  const TextLimit: nat := 250

  /** U+0000, a character no PostgreSQL text value can hold. */
  const Nul: char := '\0'

  /** A value a text column holds as it is: at most 250 characters, no NUL. */
  predicate Storable(v: string) {
    |v| <= TextLimit && Nul !in v
  }

  /** The row's name and brand are held by their columns as they are. */
  predicate FitsColumns(d: Device) {
    Storable(d.name) && Storable(d.brand)
  }

  /** Only spaces from position `n` on. */
  predicate BlankFrom(v: string, n: nat) {
    forall i :: n <= i < |v| ==> v[i] == ' '
  }

  /** What a `varchar(250)` column keeps of a value (section 8.3 of the
      PostgreSQL documentation, Character Types): a value of at most 250
      characters is kept as it is; a longer one whose excess characters are
      all spaces is cut to 250 characters; any other longer value is refused,
      and so is every value with a NUL character. */
  function ColumnText(v: string): (r: Option<string>)
    ensures r.Some? <==> Nul !in v && (|v| <= TextLimit || BlankFrom(v, TextLimit))
    ensures r.Some? ==> Storable(r.value) && r.value <= v && BlankFrom(v, |r.value|)
    ensures r.Some? && |v| <= TextLimit ==> r.value == v
    ensures r.Some? && |v| > TextLimit ==> |r.value| == TextLimit
  {
    if Nul in v then None
    else if |v| <= TextLimit then Some(v)
    else if BlankFrom(v, TextLimit) then Some(v[..TextLimit])
    else None
  }

  /** The row the table keeps for `d`: its name and brand as their columns
      keep them, everything else as given; None when a column refuses. */
  function StoredRow(d: Device): (r: Option<Device>)
    ensures r.Some? <==> ColumnText(d.name).Some? && ColumnText(d.brand).Some?
    ensures r.Some? ==> && FitsColumns(r.value)
                        && Some(r.value.name) == ColumnText(d.name)
                        && Some(r.value.brand) == ColumnText(d.brand)
                        && r.value.(name := d.name, brand := d.brand) == d
    ensures FitsColumns(d) ==> r == Some(d)
  {
    match ColumnText(d.name)
    case None => None
    case Some(name) =>
      match ColumnText(d.brand)
      case None => None
      case Some(brand) => Some(d.(name := name, brand := brand))
  }

  /** What the schema and the handlers together guarantee of every row: a
      state from the enumeration, a non-empty name and brand, and text that
      fits its columns. */
  ghost predicate Consistent(s: Store) {
    forall id :: id in s ==>
      InStateEnum(s[id].state) && s[id].name != "" && s[id].brand != "" && FitsColumns(s[id])
  }

  ghost predicate WellFormed(s: Store) {
    KeyedById(s) && Consistent(s)
  }

  /** Predicate for the name filter of a list query: `Matcher(stored, pattern)`.
      The store's own matching rule is not part of this model, so callers
      supply it (exact equality, a substring search, ...). */
  type NameMatcher = (string, string) -> bool

  /** Exact equality, the rule the handler tests' in-memory store uses. */
  function ExactName(stored: string, pattern: string): bool {
    stored == pattern
  }

  /** `pattern` occurs in `stored` starting at position `i`. */
  predicate OccursAt(stored: string, pattern: string, i: int) {
    0 <= i && i + |pattern| <= |stored| && stored[i..i + |pattern|] == pattern
  }

  /** Case-sensitive substring search: a partial name match. */
  function ContainsName(stored: string, pattern: string): (found: bool)
    ensures found <==> exists i :: OccursAt(stored, pattern, i)
    ensures found ==> |pattern| <= |stored|
    decreases |stored|
  {
    if |pattern| <= |stored| && stored[..|pattern|] == pattern then
      assert OccursAt(stored, pattern, 0);
      true
    else if stored == [] then false
    else
      OccursShift(stored, pattern);
      ContainsName(stored[1..], pattern)
  }

  /** When the pattern is not a prefix, its occurrences in `stored` are
      exactly those in `stored[1..]`, one position further on. */
  lemma OccursShift(stored: string, pattern: string)
    requires stored != []
    requires !(|pattern| <= |stored| && stored[..|pattern|] == pattern)
    ensures (exists i :: OccursAt(stored, pattern, i)) <==> (exists j :: OccursAt(stored[1..], pattern, j))
  {
    forall j | OccursAt(stored[1..], pattern, j)
      ensures OccursAt(stored, pattern, j + 1)
    {
      assert stored[1..][j..j + |pattern|] == stored[j + 1..j + 1 + |pattern|];
    }
    forall i | OccursAt(stored, pattern, i)
      ensures OccursAt(stored[1..], pattern, i - 1)
    {
      assert i != 0;
      assert stored[1..][i - 1..i - 1 + |pattern|] == stored[i..i + |pattern|];
    }
  }

  /** A matcher that accepts every name as a match for itself. */
  ghost predicate Reflexive(m: NameMatcher) {
    forall x :: m(x, x)
  }

  /** The filters of a list query; an empty filter value selects everything. */
  datatype Filter = Filter(brand: string, state: string, name: string)

  /** The row predicate of a list query: active, and matching every filter
      that is present.  Brand and state match exactly. */
  predicate Selects(f: Filter, m: NameMatcher, d: Device) {
    && !d.deleted
    && (f.brand == "" || d.brand == f.brand)
    && (f.state == "" || d.state == f.state)
    && (f.name == "" || m(d.name, f.name))
  }

  /** The store refuses a list query whose state filter is not a label of the
      enumeration (the comparison casts it to `device_state`), or whose brand
      or name filter holds a NUL character. */
  predicate QueryRejected(f: Filter) {
    (f.state != "" && !InStateEnum(f.state)) || Nul in f.brand || Nul in f.name
  }

  /** Keys of the active records a list query selects (before pagination). */
  function QueryActive(s: Store, f: Filter, m: NameMatcher): (ids: set<Id>)
    ensures ids <= s.Keys
    ensures forall id :: id in ids ==> !s[id].deleted
    ensures forall id :: id in s && Selects(f, m, s[id]) ==> id in ids
    ensures forall id :: id in ids ==> Selects(f, m, s[id])
  {
    set id | id in s && Selects(f, m, s[id])
  }

  /** Fetch one active record by key; a deleted or unknown key is not found. */
  function FindActive(s: Store, id: Id): (r: Option<Device>)
    ensures r.Some? <==> id in s && !s[id].deleted
    ensures r.Some? ==> r.value == s[id]
  {
    if id in s && !s[id].deleted then Some(s[id]) else None
  }

  /** Insert a new row, as its columns keep it; a primary-key collision or
      text a column refuses is a storage error. */
  function Insert(s: Store, d: Device): (r: Option<Store>)
    ensures r.Some? <==> d.id !in s && StoredRow(d).Some?
    ensures r.Some? ==> r.value.Keys == s.Keys + {d.id} && Some(r.value[d.id]) == StoredRow(d)
    ensures r.Some? ==> forall id :: id in s ==> r.value[id] == s[id]
    ensures r.Some? && FitsColumns(d) ==> r.value[d.id] == d
  {
    if d.id in s then None
    else
      match StoredRow(d)
      case None => None
      case Some(row) => Some(s[d.id := row])
  }

  /** Overwrite the active row with `d`'s key, as its columns keep `d`; an
      inactive or unknown key affects no row, which the store reports as an
      error, and so is text a column refuses. */
  function SaveActive(s: Store, d: Device): (r: Option<Store>)
    ensures r.Some? <==> d.id in s && !s[d.id].deleted && StoredRow(d).Some?
    ensures r.Some? ==> r.value.Keys == s.Keys && Some(r.value[d.id]) == StoredRow(d)
    ensures r.Some? ==> forall id :: id in s && id != d.id ==> r.value[id] == s[id]
    ensures r.Some? && FitsColumns(d) ==> r.value[d.id] == d
  {
    if d.id !in s || s[d.id].deleted then None
    else
      match StoredRow(d)
      case None => None
      case Some(row) => Some(s[d.id := row])
  }

  /** Mark the active row `id` deleted; an inactive or unknown key affects no
      row, which the store reports as an error. */
  function SoftDelete(s: Store, id: Id): (r: Option<Store>)
    ensures r.Some? <==> id in s && !s[id].deleted
    ensures r.Some? ==> r.value.Keys == s.Keys && r.value[id] == s[id].(deleted := true)
    ensures r.Some? ==> forall k :: k in s && k != id ==> r.value[k] == s[k]
  {
    if id in s && !s[id].deleted then Some(s[id := s[id].(deleted := true)]) else None
  }

  /** A substring search is reflexive, so partial matching still finds exact names. */
  lemma ContainsNameIsReflexive()
    ensures Reflexive(ContainsName)
  {
  }

  lemma ExactNameIsReflexive()
    ensures Reflexive(ExactName)
  {
  }

  /** What a column keeps it keeps unchanged the next time. */
  lemma ColumnTextIdempotent(v: string)
    requires ColumnText(v).Some?
    ensures ColumnText(ColumnText(v).value) == ColumnText(v)
  {
  }

  /** A non-empty value stays non-empty in its column. */
  lemma ColumnTextNonEmpty(v: string)
    requires ColumnText(v).Some? && v != ""
    ensures ColumnText(v).value != ""
  {
  }
}

=== FILE: life_story.dfy ===
/** One device's life through the routes, with exact name matching:
    create; a second create of the same pair conflicts; the brand listing
    holds the one device; once In-Use it can be neither renamed nor deleted;
    back to Available it is deleted, after which a fetch fails with 500. */
module LifeStory {
  import opened Database
  import opened Web
  import opened Service
  import Lifecycle

  // The stores the story passes through: after create, while In-Use, after delete.
  const Phone: DeviceInput := DeviceInput("Phone1", "Acme", Available)
  const D1: Device := Device("d1", false, "Phone1", "Acme", 1, Available)
  const Empty: Store := map[]
  const S1: Store := map["d1" := D1]
  const S4: Store := map["d1" := D1.(state := InUse)]
  const S8: Store := map["d1" := D1.(deleted := true)]

  lemma CreateStep()
    ensures Handle(Empty, Create(Phone, "d1", 1), ExactName) == Reply(S1, Created(D1))
  {
  }

  lemma DuplicateStep()
    ensures Handle(S1, Create(Phone, "d2", 2), ExactName) == Reply(S1, Failed(DuplicateDevice))
  {
    ExactNameIsReflexive();
    Lifecycle.SamePairConflicts(S1, Phone, ExactName, "d2", 2, "d1");
  }

  lemma ListStep()
    ensures Handle(S1, List(Filter("Acme", "", "")), ExactName) == Reply(S1, Listed({D1}))
  {
    assert QueryActive(S1, Filter("Acme", "", ""), ExactName) == {"d1"};
    assert (set id | id in {"d1"} :: S1[id]) == {D1};
  }

  lemma InUseStep()
    ensures Handle(S1, Update("d1", DeviceInput("", "", InUse)), ExactName) == Reply(S4, Fetched(S4["d1"]))
  {
  }

  lemma RenameStep()
    ensures Handle(S4, Update("d1", DeviceInput("changed", "", "")), ExactName) == Reply(S4, Failed(FrozenWhileInUse))
  {
  }

  lemma DeleteInUseStep()
    ensures Handle(S4, Delete("d1"), ExactName) == Reply(S4, Failed(DeleteWhileInUse))
  {
  }

  lemma ReleaseStep()
    ensures Handle(S4, Update("d1", DeviceInput("", "", Available)), ExactName) == Reply(S1, Fetched(D1))
  {
  }

  lemma DeleteStep()
    ensures Handle(S1, Delete("d1"), ExactName) == Reply(S8, NoContent)
  {
  }

  lemma GetStep()
    ensures Handle(S8, Get("d1"), ExactName) == Reply(S8, Failed(LookupFailed))
  {
  }

  /** A state filter outside the enumeration makes the store reject the
      list query, which the handler answers with 500. */
  lemma InvalidFilterStep()
    ensures Handle(S1, List(Filter("", "INVALID_STATE_FOR_ERROR", "")), ExactName) == Reply(S1, Failed(QueryFailed))
  {
  }

  /** With a partial name matcher the duplicate probe of create also finds
      longer names: "Phone" is refused while "Phone1" of the same brand is active. */
  lemma PartialMatchConflictStep()
    ensures Handle(S1, Create(DeviceInput("Phone", "Acme", Available), "d2", 2), ContainsName)
         == Reply(S1, Failed(DuplicateDevice))
  {
    assert "Phone1"[..|"Phone"|] == "Phone";
    assert ContainsName("Phone1", "Phone");
    assert "d1" in QueryActive(S1, DuplicateProbe(DeviceInput("Phone", "Acme", Available)), ContainsName);
  }
}

=== FILE: lifecycle.dfy ===
/** Properties of the device handlers that relate several calls, or a call
    and the store invariants: what a later read sees, what create, update and
    delete preserve, and the update rules stated from the caller's side. */
module Lifecycle {
  import opened Database
  import opened Web

  /** The state check is exact: no case folding, no trimming, no variants. */
  lemma StateCheckExamples()
    ensures IsValidState("Available") && IsValidState("In-Use") && IsValidState("Inactive")
    ensures !IsValidState("") && !IsValidState("available") && !IsValidState("InUse")
    ensures !IsValidState("In-Use ") && !IsValidState("Unknown")
  {
  }

  // ---------------------------------------------------------------- create

  /** Create's field and state checks consult nothing in the store: any two
      stores give the same rejection. */
  lemma CreateValidationIgnoresStore(s1: Store, s2: Store, body: DeviceInput, m: NameMatcher,
                                     freshId: Id, now: Timestamp)
    requires MissingRequired(body) || !IsValidState(body.state)
    ensures NewDevice(s1, body, m, freshId, now).outcome == NewDevice(s2, body, m, freshId, now).outcome
    ensures NewDevice(s1, body, m, freshId, now).store == s1
    ensures Status(NewDevice(s1, body, m, freshId, now).outcome) == 400
  {
  }

  /** The duplicate check ignores the requested state: two valid requests
      for the same name and brand conflict alike. */
  lemma DuplicateCheckIgnoresState(s: Store, body: DeviceInput, state: string, m: NameMatcher,
                                   freshId: Id, now: Timestamp)
    requires !MissingRequired(body) && IsValidState(body.state) && IsValidState(state)
    ensures NewDevice(s, body, m, freshId, now).outcome == Failed(DuplicateDevice)
        <==> NewDevice(s, body.(state := state), m, freshId, now).outcome == Failed(DuplicateDevice)
  {
  }

  /** With any matcher that finds a name by itself (exact or partial), an
      active stored device with the same name and brand always blocks create. */
  lemma SamePairConflicts(s: Store, body: DeviceInput, m: NameMatcher, freshId: Id, now: Timestamp, other: Id)
    requires Reflexive(m)
    requires !MissingRequired(body) && IsValidState(body.state)
    requires other in s && !s[other].deleted && FitsColumns(s[other])
    requires s[other].name == body.name && s[other].brand == body.brand
    ensures NewDevice(s, body, m, freshId, now) == Reply(s, Failed(DuplicateDevice))
  {
  }

  /** With exact name matching, create conflicts exactly when an active
      device already carries the requested name and brand (and the store
      accepts the probe: no NUL in them). */
  lemma ExactConflictIff(s: Store, body: DeviceInput, freshId: Id, now: Timestamp)
    requires !MissingRequired(body) && IsValidState(body.state)
    ensures NewDevice(s, body, ExactName, freshId, now).outcome == Failed(DuplicateDevice)
        <==> && Nul !in body.name && Nul !in body.brand
             && exists id :: id in s && !s[id].deleted && s[id].name == body.name && s[id].brand == body.brand
  {
  }

  /** With a reflexive matcher, a valid request that meets no duplicate and
      a fresh key is created, and the read-back returns the row written. */
  lemma CreateSucceeds(s: Store, body: DeviceInput, m: NameMatcher, freshId: Id, now: Timestamp)
    requires Reflexive(m)
    requires !MissingRequired(body) && IsValidState(body.state)
    requires QueryActive(s, DuplicateProbe(body), m) == {}
    requires freshId !in s && FitsColumns(NewRecord(body, freshId, now))
    ensures NewDevice(s, body, m, freshId, now)
         == Reply(s[freshId := NewRecord(body, freshId, now)], Created(NewRecord(body, freshId, now)))
  {
  }

  /** A create whose name runs past 250 characters with only spaces is
      written with the name cut to 250, but the read-back filters on the name
      as sent; exact and substring matching both miss the row, and the
      answer is 500 with the row stored. */
  lemma TrailingSpacesCreateFailsReadBack(s: Store, body: DeviceInput, freshId: Id, now: Timestamp)
    requires WellFormed(s)
    requires body.brand != "" && Storable(body.brand) && IsValidState(body.state)
    requires |body.name| > TextLimit && Nul !in body.name && BlankFrom(body.name, TextLimit)
    requires freshId !in s
    ensures var kept := s[freshId := NewRecord(body, freshId, now).(name := body.name[..TextLimit])];
            && NewDevice(s, body, ExactName, freshId, now) == Reply(kept, Failed(RefetchFailed))
            && NewDevice(s, body, ContainsName, freshId, now) == Reply(kept, Failed(RefetchFailed))
  {
  }

  /** A created device is what a later fetch of its key returns. */
  lemma CreatedIsFetchable(s: Store, body: DeviceInput, m: NameMatcher, freshId: Id, now: Timestamp)
    requires NewDevice(s, body, m, freshId, now).outcome.Created?
    ensures var r := NewDevice(s, body, m, freshId, now);
            GetDeviceByID(r.store, freshId) == Reply(r.store, Fetched(r.outcome.device))
  {
  }

  // ---------------------------------------------------------------- update

  /** Name and brand of an in-use device survive every update request, also
      one that moves the state away from In-Use. */
  lemma InUseNameAndBrandFrozen(s: Store, id: Id, body: DeviceInput)
    requires KeyedById(s)
    requires id in s && s[id].state == InUse && FitsColumns(s[id])
    ensures var r := UpdateDevice(s, id, body);
            r.store[id].name == s[id].name && r.store[id].brand == s[id].brand
  {
  }

  /** An in-use device whose request keeps its name and brand may change its
      state: only the state of the stored row changes. */
  lemma InUseStateChangeAllowed(s: Store, id: Id, body: DeviceInput)
    requires KeyedById(s)
    requires id in s && !s[id].deleted && s[id].state == InUse && FitsColumns(s[id])
    requires body.name == "" || body.name == s[id].name
    requires body.brand == "" || body.brand == s[id].brand
    requires IsValidState(body.state) && body.state != InUse
    ensures UpdateDevice(s, id, body)
         == Reply(s[id := s[id].(state := body.state)], Fetched(s[id].(state := body.state)))
  {
  }

  /** On a consistent store every non-empty invalid state is refused with
      400 and no write, whether it came alone or with other changes. */
  lemma InvalidStateNeverStored(s: Store, id: Id, body: DeviceInput)
    requires WellFormed(s)
    requires id in s && !s[id].deleted
    requires body.state != "" && !IsValidState(body.state)
    ensures var r := UpdateDevice(s, id, body);
            r.store == s && Status(r.outcome) == 400
  {
  }

  /** A request whose non-empty fields all equal the stored ones is answered
      with the stored row and leaves the store as it was. */
  lemma NoChangeIsNoWrite(s: Store, id: Id, body: DeviceInput)
    requires KeyedById(s)
    requires id in s && !s[id].deleted
    requires body.name == "" || body.name == s[id].name
    requires body.brand == "" || body.brand == s[id].brand
    requires body.state == "" || body.state == s[id].state
    ensures UpdateDevice(s, id, body) == Reply(s, Fetched(s[id]))
  {
  }

  /** Applying the same update twice changes nothing the second time. */
  lemma UpdateIdempotent(s: Store, id: Id, body: DeviceInput)
    requires KeyedById(s)
    ensures var r := UpdateDevice(s, id, body);
            KeyedById(r.store) &&
            UpdateDevice(r.store, id, body).store == r.store
  {
  }

  /** A device that is not in use can be renamed to any name its column
      holds: 200 with the renamed row, and only its name changes. */
  lemma RenameAccepted(s: Store, id: Id, name: string)
    requires KeyedById(s)
    requires id in s && !s[id].deleted && s[id].state != InUse && FitsColumns(s[id])
    requires name != "" && name != s[id].name && Storable(name)
    ensures UpdateDevice(s, id, DeviceInput(name, "", ""))
         == Reply(s[id := s[id].(name := name)], Fetched(s[id].(name := name)))
  {
  }

  /** A rename to a name its column refuses (longer than 250 characters
      with some excess character not a space, or holding a NUL) is refused by
      the store: the handler answers 500 and nothing changes. */
  lemma RefusedNameIsStorageError(s: Store, id: Id, body: DeviceInput)
    requires KeyedById(s)
    requires id in s && !s[id].deleted && s[id].state != InUse && FitsColumns(s[id])
    requires ColumnText(body.name).None?
    requires body.state == "" || IsValidState(body.state)
    ensures UpdateDevice(s, id, body) == Reply(s, Failed(WriteFailed))
  {
  }

  /** A rename to a name longer than 250 characters whose excess is all
      spaces is accepted: the column keeps the first 250 characters, and the
      handler answers 200 with the name as requested. */
  lemma TrailingSpacesAreCut(s: Store, id: Id, body: DeviceInput)
    requires KeyedById(s)
    requires id in s && !s[id].deleted && s[id].state != InUse && FitsColumns(s[id])
    requires |body.name| > TextLimit && Nul !in body.name && BlankFrom(body.name, TextLimit)
    requires body.brand == "" && body.state == ""
    ensures UpdateDevice(s, id, body)
         == Reply(s[id := s[id].(name := body.name[..TextLimit])], Fetched(s[id].(name := body.name)))
  {
  }

  // ---------------------------------------------------------------- delete

  /** After a successful delete the row is still stored, but neither a fetch
      nor a second delete finds it. */
  lemma DeletedIsHidden(s: Store, id: Id)
    requires KeyedById(s)
    requires DeleteDevice(s, id).outcome == NoContent
    ensures var r := DeleteDevice(s, id);
            && id in r.store && r.store[id].deleted
            && r.store[id] == s[id].(deleted := true)
            && GetDeviceByID(r.store, id).outcome == Failed(LookupFailed)
            && DeleteDevice(r.store, id) == Reply(r.store, Failed(LookupFailed))
            && UpdateDevice(r.store, id, DeviceInput("", "", Available)).outcome == Failed(LookupFailed)
  {
  }

  // ---------------------------------------------------------------- list

  /** Every device a listing returns is what a fetch of its key returns. */
  lemma ListedAreFetchable(s: Store, f: Filter, m: NameMatcher, d: Device)
    requires KeyedById(s)
    requires GetDeviceByFilter(s, f, m).outcome.Listed?
    requires d in GetDeviceByFilter(s, f, m).outcome.devices
    ensures GetDeviceByID(s, d.id) == Reply(s, Fetched(d))
  {
  }

  /** A created device is in the listing of its own brand. */
  lemma CreatedIsListed(s: Store, body: DeviceInput, m: NameMatcher, freshId: Id, now: Timestamp)
    requires NewDevice(s, body, m, freshId, now).outcome.Created?
    ensures var r := NewDevice(s, body, m, freshId, now);
            var listing := GetDeviceByFilter(r.store, Filter(body.brand, "", ""), m);
            listing.outcome.Listed? && r.outcome.device in listing.outcome.devices
  {
  }

  /** After a successful delete no listing, whatever its filters, holds the device. */
  lemma DeletedIsUnlisted(s: Store, id: Id, f: Filter, m: NameMatcher)
    requires KeyedById(s)
    requires DeleteDevice(s, id).outcome == NoContent
    ensures var listing := GetDeviceByFilter(DeleteDevice(s, id).store, f, m);
            listing.outcome.Listed? ==> forall d :: d in listing.outcome.devices ==> d.id != id
  {
  }

  // ---------------------------------------------------------------- invariants

  lemma NewDevicePreservesWellFormed(s: Store, body: DeviceInput, m: NameMatcher, freshId: Id, now: Timestamp)
    requires WellFormed(s)
    ensures WellFormed(NewDevice(s, body, m, freshId, now).store)
  {
  }

  lemma UpdateDevicePreservesWellFormed(s: Store, id: Id, body: DeviceInput)
    requires WellFormed(s)
    ensures WellFormed(UpdateDevice(s, id, body).store)
  {
  }

  lemma DeleteDevicePreservesWellFormed(s: Store, id: Id)
    requires WellFormed(s)
    ensures WellFormed(DeleteDevice(s, id).store)
  {
  }
}

=== FILE: service.dfy ===
/** The service as a whole: the five routes dispatched over one store, and a
    run of requests in sequence.  `Handle` and `Run` are the service as
    written; `HandleCorrected` and `RunCorrected` route creates and updates
    through the handlers with the name-and-brand checks
    (`UniquePairs.NewDeviceUnique`, `UniquePairs.UpdateDeviceUnique`). */
module Service {
  import opened Database
  import opened Web
  import opened UniquePairs
  import Lifecycle

  /** One decoded request.  Create carries the key and creation time the
      store would assign to a new row. */
  datatype Command =
    | Create(body: DeviceInput, freshId: Id, now: Timestamp)
    | Update(id: Id, body: DeviceInput)
    | Get(id: Id)
    | List(filter: Filter)
    | Delete(id: Id)

  /** What a request may do to rows that already exist: keep them, keep
      their key and creation time, and leave deleted rows exactly as they are. */
  ghost predicate KeepsHistory(s: Store, s': Store) {
    forall id :: id in s ==>
      && id in s'
      && s'[id].id == s[id].id
      && s'[id].createdAt == s[id].createdAt
      && (s[id].deleted ==> s'[id] == s[id])
  }

  /** Route one request to its handler, as the router does. */
  function Handle(s: Store, c: Command, m: NameMatcher): (r: Reply)
    requires WellFormed(s)
    ensures WellFormed(r.store)
    ensures KeepsHistory(s, r.store)
    ensures c.Get? || c.List? ==> r.store == s
  {
    match c
    case Create(body, freshId, now) =>
      Lifecycle.NewDevicePreservesWellFormed(s, body, m, freshId, now);
      NewDevice(s, body, m, freshId, now)
    case Update(id, body) =>
      Lifecycle.UpdateDevicePreservesWellFormed(s, id, body);
      UpdateDevice(s, id, body)
    case Get(id) => GetDeviceByID(s, id)
    case List(f) => GetDeviceByFilter(s, f, m)
    case Delete(id) =>
      Lifecycle.DeleteDevicePreservesWellFormed(s, id);
      DeleteDevice(s, id)
  }

  /** The routes with the corrected create and update: they also keep the
      name-and-brand rule when the name matcher is reflexive. */
  function HandleCorrected(s: Store, c: Command, m: NameMatcher): (r: Reply)
    requires WellFormed(s)
    ensures WellFormed(r.store)
    ensures KeepsHistory(s, r.store)
    ensures Reflexive(m) && UniqueActivePairs(s) ==> UniqueActivePairs(r.store)
    ensures c.Get? || c.List? ==> r.store == s
    ensures c.Get? || c.List? || c.Delete? ==> r == Handle(s, c, m)
    ensures c.Create? && FitsColumns(NewRecord(c.body, c.freshId, c.now)) ==> r == Handle(s, c, m)
  {
    match c
    case Create(body, freshId, now) =>
      CorrectedCreateKeeps(s, body, m, freshId, now);
      NewDeviceUnique(s, body, m, freshId, now)
    case Update(id, body) =>
      CorrectedUpdateKeeps(s, id, body);
      UpdateDeviceUnique(s, id, body)
    case Get(id) => Handle(s, c, m)
    case List(f) => Handle(s, c, m)
    case Delete(id) =>
      assert UniqueActivePairs(s) ==> UniqueActivePairs(DeleteDevice(s, id).store) by {
        if UniqueActivePairs(s) {
          DeleteDevicePreservesUniquePairs(s, id);
        }
      }
      Handle(s, c, m)
  }

  /** The corrected create adds at most one well-formed row and keeps the
      uniqueness rule. */
  lemma CorrectedCreateKeeps(s: Store, body: DeviceInput, m: NameMatcher, freshId: Id, now: Timestamp)
    requires WellFormed(s)
    ensures var r := NewDeviceUnique(s, body, m, freshId, now);
            && WellFormed(r.store) && KeepsHistory(s, r.store)
            && (Reflexive(m) && UniqueActivePairs(s) ==> UniqueActivePairs(r.store))
  {
    var r := NewDeviceUnique(s, body, m, freshId, now);
    if r.store != s {
      ColumnTextNonEmpty(body.name);
      ColumnTextNonEmpty(body.brand);
    }
    if Reflexive(m) && UniqueActivePairs(s) {
      NewDeviceUniquePreservesUniquePairs(s, body, m, freshId, now);
    }
  }

  /** The corrected update changes at most the named row, keeps it
      well-formed, and keeps the uniqueness rule. */
  lemma CorrectedUpdateKeeps(s: Store, id: Id, body: DeviceInput)
    requires WellFormed(s)
    ensures var r := UpdateDeviceUnique(s, id, body);
            && WellFormed(r.store) && KeepsHistory(s, r.store)
            && (UniqueActivePairs(s) ==> UniqueActivePairs(r.store))
  {
    Lifecycle.UpdateDevicePreservesWellFormed(s, id, body);
    if UniqueActivePairs(s) {
      UpdateDeviceUniquePreservesUniquePairs(s, id, body);
    }
  }

  lemma KeepsHistoryTransitive(s1: Store, s2: Store, s3: Store)
    requires KeepsHistory(s1, s2) && KeepsHistory(s2, s3)
    ensures KeepsHistory(s1, s3)
  {
  }

  /** The store after a sequence of requests, each against the store the
      previous one left.  Over any such run no row disappears, no key or
      creation time changes, a soft-deleted row is never touched again, and
      the store invariants hold throughout. */
  function Run(s: Store, cmds: seq<Command>, m: NameMatcher): (r: Store)
    requires WellFormed(s)
    ensures WellFormed(r)
    ensures KeepsHistory(s, r)
    decreases |cmds|
  {
    if cmds == [] then s
    else
      var s1 := Handle(s, cmds[0], m).store;
      var r := Run(s1, cmds[1..], m);
      KeepsHistoryTransitive(s, s1, r);
      r
  }

  /** A run through the corrected routes keeps, besides everything `Run`
      keeps, the name-and-brand rule. */
  function RunCorrected(s: Store, cmds: seq<Command>, m: NameMatcher): (r: Store)
    requires WellFormed(s)
    ensures WellFormed(r)
    ensures KeepsHistory(s, r)
    ensures Reflexive(m) && UniqueActivePairs(s) ==> UniqueActivePairs(r)
    decreases |cmds|
  {
    if cmds == [] then s
    else
      var s1 := HandleCorrected(s, cmds[0], m).store;
      var r := RunCorrected(s1, cmds[1..], m);
      KeepsHistoryTransitive(s, s1, r);
      r
  }

  /** The routes as written do not keep the rule: the rename of the update
      counterexample, sent through `Handle`, is accepted; the corrected
      routes refuse it. */
  lemma HandleBreaksUniquePairs()
    ensures var c := Update("b", DeviceInput("Phone", "", ""));
            && WellFormed(TwoAcme) && UniqueActivePairs(TwoAcme)
            && Status(Handle(TwoAcme, c, ExactName).outcome) == 200
            && !UniqueActivePairs(Handle(TwoAcme, c, ExactName).store)
            && HandleCorrected(TwoAcme, c, ExactName) == Reply(TwoAcme, Failed(DuplicateDevice))
  {
    UpdateDeviceBreaksUniquePairs();
    assert PairTakenByOther(TwoAcme, "b", "Phone", "Acme") by {
      assert TwoAcme["a"].name == "Phone" && TwoAcme["a"].brand == "Acme";
    }
  }
}

=== FILE: unique_pairs.dfy ===
/** The name-and-brand uniqueness rule: no two active devices share both a
    name and a brand.  Create enforces it for text its columns keep as sent;
    a name whose excess over 250 characters is all spaces slips past its
    probe and lands, cut, on an existing pair.  The update handler as written
    does not look at other devices at all, so a rename can produce a second
    active device with an existing pair.  `NewDeviceUnique` and
    `UpdateDeviceUnique` are the handlers with the missing checks;
    `Service.HandleCorrected` routes requests through them. */
module UniquePairs {
  import opened Database
  import opened Web
  import Lifecycle

  ghost predicate UniqueActivePairs(s: Store) {
    forall a, b :: a in s && b in s && a != b && !s[a].deleted && !s[b].deleted
      ==> s[a].name != s[b].name || s[a].brand != s[b].brand
  }

  /** Create keeps the rule whenever its name matcher finds every name by
      itself and the requested name and brand fit their columns. */
  lemma NewDevicePreservesUniquePairs(s: Store, body: DeviceInput, m: NameMatcher, freshId: Id, now: Timestamp)
    requires Reflexive(m)
    requires |body.name| <= TextLimit && |body.brand| <= TextLimit
    requires UniqueActivePairs(s)
    ensures UniqueActivePairs(NewDevice(s, body, m, freshId, now).store)
  {
  }

  /** The create handler as written breaks the rule: a request whose name is
      an active device's 250-character name plus a space passes the probe,
      since no stored name is that long, and the column cuts it back to the
      existing name.  The read-back misses the row too, so the answer is 500
      with the row written.  This holds for exact and for substring matching. */
  lemma NewDeviceBreaksUniquePairs(s: Store, other: Id, freshId: Id, now: Timestamp)
    requires WellFormed(s)
    requires other in s && !s[other].deleted && |s[other].name| == TextLimit
    requires freshId !in s
    ensures var body := DeviceInput(s[other].name + " ", s[other].brand, Available);
            var kept := s[freshId := Device(freshId, false, s[other].name, s[other].brand, now, Available)];
            && NewDevice(s, body, ExactName, freshId, now) == Reply(kept, Failed(RefetchFailed))
            && NewDevice(s, body, ContainsName, freshId, now) == Reply(kept, Failed(RefetchFailed))
            && !UniqueActivePairs(kept)
  {
  }

  /** POST /device with its duplicate probe made on the text as the columns
      will keep it: the request goes on with that text, so the probe, the
      row written and the read-back all agree. */
  function NewDeviceUnique(s: Store, body: DeviceInput, m: NameMatcher, freshId: Id, now: Timestamp): (r: Reply)
    // text the columns keep as sent is handled as before
    ensures (MissingRequired(body) || !IsValidState(body.state) || FitsColumns(NewRecord(body, freshId, now))) ==>
              r == NewDevice(s, body, m, freshId, now)
    ensures r.store != s ==>
              && !MissingRequired(body) && IsValidState(body.state)
              && freshId !in s && StoredRow(NewRecord(body, freshId, now)).Some?
              && r.store == s[freshId := StoredRow(NewRecord(body, freshId, now)).value]
    // the probe saw the pair that is written
    ensures r.store != s ==> QueryActive(s, DuplicateProbe(DeviceInput(r.store[freshId].name, r.store[freshId].brand, body.state)), m) == {}
    // the row written is always found again: no 500 after a write
    ensures Reflexive(m) && r.store != s ==> r.outcome == Created(r.store[freshId])
    // text the columns cut goes on as kept: 409 exactly when the probe on the
    // kept text finds a row, and otherwise a write with a fresh key
    ensures !MissingRequired(body) && IsValidState(body.state) && StoredRow(NewRecord(body, freshId, now)).Some? ==>
              var kept := StoredRow(NewRecord(body, freshId, now)).value;
              var k := DeviceInput(kept.name, kept.brand, body.state);
              && (r.outcome == Failed(DuplicateDevice) <==> QueryActive(s, DuplicateProbe(k), m) != {})
              && (Reflexive(m) && freshId !in s && QueryActive(s, DuplicateProbe(k), m) == {} ==> r.outcome.Created?)
  {
    if MissingRequired(body) || !IsValidState(body.state) then NewDevice(s, body, m, freshId, now)
    else
      match StoredRow(NewRecord(body, freshId, now))
      case None => NewDevice(s, body, m, freshId, now)
      case Some(kept) =>
        ColumnTextNonEmpty(body.name);
        ColumnTextNonEmpty(body.brand);
        var sent := DeviceInput(kept.name, kept.brand, body.state);
        assert NewRecord(sent, freshId, now) == kept;
        var r := NewDevice(s, sent, m, freshId, now);
        assert Reflexive(m) && r.store != s ==> r.outcome == Created(r.store[freshId]) by {
          if Reflexive(m) && r.store != s {
            assert m(kept.name, kept.name);
            assert freshId in QueryActive(r.store, Filter(kept.brand, kept.state, kept.name), m);
          }
        }
        r
  }

  /** The corrected create keeps the rule for every request. */
  lemma NewDeviceUniquePreservesUniquePairs(s: Store, body: DeviceInput, m: NameMatcher, freshId: Id, now: Timestamp)
    requires Reflexive(m)
    requires UniqueActivePairs(s)
    ensures UniqueActivePairs(NewDeviceUnique(s, body, m, freshId, now).store)
  {
  }

  /** Delete only ever makes a device inactive, so it keeps the rule. */
  lemma DeleteDevicePreservesUniquePairs(s: Store, id: Id)
    requires UniqueActivePairs(s)
    ensures UniqueActivePairs(DeleteDevice(s, id).store)
  {
  }

  /** Two active Acme devices with different names. */
  const TwoAcme: Store := map[
    "a" := Device("a", false, "Phone", "Acme", 0, Available),
    "b" := Device("b", false, "Tablet", "Acme", 0, Available)]

  lemma TwoAcmeKeepsRules()
    ensures WellFormed(TwoAcme) && UniqueActivePairs(TwoAcme)
  {
  }

  /** The update handler as written breaks the rule: renaming the second of
      two active Acme devices to the first one's name is accepted. */
  lemma UpdateDeviceBreaksUniquePairs()
    ensures var r := UpdateDevice(TwoAcme, "b", DeviceInput("Phone", "", ""));
            && WellFormed(TwoAcme) && UniqueActivePairs(TwoAcme)
            && Status(r.outcome) == 200
            && !UniqueActivePairs(r.store)
  {
    TwoAcmeKeepsRules();
    Lifecycle.RenameAccepted(TwoAcme, "b", "Phone");
    var r := UpdateDevice(TwoAcme, "b", DeviceInput("Phone", "", ""));
    assert r.store["a"].name == r.store["b"].name && r.store["a"].brand == r.store["b"].brand;
  }

  /** Another active device that already has this name and brand. */
  predicate PairTakenByOther(s: Store, id: Id, name: string, brand: string) {
    exists other :: other in s && other != id && !s[other].deleted && s[other].name == name && s[other].brand == brand
  }

  /** PUT /device/{id} with the uniqueness check the create handler has: a
      write whose stored name and brand change onto a pair another active
      device holds is a 409 and writes nothing; every other request is
      handled as before. */
  function UpdateDeviceUnique(s: Store, id: Id, body: DeviceInput): (r: Reply)
    requires KeyedById(s)
    ensures r.outcome != Failed(DuplicateDevice) ==> r == UpdateDevice(s, id, body)
    ensures r.outcome == Failed(DuplicateDevice) ==>
              && r.store == s
              && UpdateDevice(s, id, body).outcome.Fetched?
              && id in s
              && RenamesPair(s[id], UpdateDevice(s, id, body).store[id])
              && (exists other :: other in s && other != id && !s[other].deleted
                    && s[other].name == UpdateDevice(s, id, body).store[id].name
                    && s[other].brand == UpdateDevice(s, id, body).store[id].brand)
    // and every accepted rename onto a pair another active device holds is refused
    ensures var plain := UpdateDevice(s, id, body);
            plain.outcome.Fetched? && id in s && RenamesPair(s[id], plain.store[id])
            && PairTakenByOther(s, id, plain.store[id].name, plain.store[id].brand)
            ==> r == Reply(s, Failed(DuplicateDevice))
  {
    var plain := UpdateDevice(s, id, body);
    if plain.outcome.Fetched? && RenamesPair(s[id], plain.store[id])
       && PairTakenByOther(s, id, plain.store[id].name, plain.store[id].brand) then
      Reply(s, Failed(DuplicateDevice))
    else
      plain
  }

  predicate RenamesPair(stored: Device, merged: Device) {
    merged.name != stored.name || merged.brand != stored.brand
  }

  /** The corrected update keeps the rule. */
  lemma UpdateDeviceUniquePreservesUniquePairs(s: Store, id: Id, body: DeviceInput)
    requires KeyedById(s)
    requires UniqueActivePairs(s)
    ensures UniqueActivePairs(UpdateDeviceUnique(s, id, body).store)
  {
  }
}

=== FILE: web.dfy ===
/** The decision logic of the device HTTP handlers, lifted out of the web
    framework as pure functions.  Each handler takes the store and the
    decoded request and returns the store after the request together with
    the outcome whose status code the handler sends. */
module Web {
  import opened Database

  /** The handler's state check: an exact, case-sensitive comparison against
      the three labels, with no trimming or case folding. */
  function IsValidState(state: string): (valid: bool)
    ensures valid <==> InStateEnum(state)
    ensures valid ==> state != ""
  {
    state == Available || state == InUse || state == Inactive
  }

  /** The fields of a request body the handlers read. */
  datatype DeviceInput = DeviceInput(name: string, brand: string, state: string)

  /** Why a request failed; `Status` gives the code the handler sends. */
  datatype ApiError =
    | MissingFields     // create without name, brand or state
    | InvalidState      // a state outside the enumeration
    | DuplicateDevice   // an active device already has this name and brand
    | InsertFailed      // the store refused the new row (key taken, text refused)
    | RefetchFailed     // the row just created could not be read back
    | LookupFailed      // the id does not name an active device
    | FrozenWhileInUse  // name or brand change on an in-use device
    | WriteFailed       // the store refused the update or the soft delete
    | DeleteWhileInUse  // delete of an in-use device
    | QueryFailed       // the store refused a list query (a state outside the enumeration)

  datatype Outcome =
    | Created(device: Device)
    | Fetched(device: Device)
    | Listed(devices: set<Device>)
    | NoContent
    | Failed(error: ApiError)

  datatype Reply = Reply(store: Store, outcome: Outcome)

  function ErrorStatus(e: ApiError): (code: int)
    ensures code in {400, 409, 500}
    ensures code == 409 <==> e == DuplicateDevice
    ensures code == 500 <==> e in {InsertFailed, RefetchFailed, LookupFailed, WriteFailed, QueryFailed}
  {
    match e
    case MissingFields => 400
    case InvalidState => 400
    case FrozenWhileInUse => 400
    case DeleteWhileInUse => 400
    case DuplicateDevice => 409
    case InsertFailed => 500
    case RefetchFailed => 500
    case LookupFailed => 500
    case WriteFailed => 500
    case QueryFailed => 500
  }

  /** The HTTP status code of an outcome. */
  function Status(o: Outcome): (code: int)
    ensures code in {200, 201, 204, 400, 409, 500}
    ensures code < 300 <==> !o.Failed?
  {
    match o
    case Created(_) => 201
    case Fetched(_) => 200
    case Listed(_) => 200
    case NoContent => 204
    case Failed(e) => ErrorStatus(e)
  }

  // ---------------------------------------------------------------- create

  predicate MissingRequired(body: DeviceInput) {
    body.name == "" || body.brand == "" || body.state == ""
  }

  /** The duplicate probe of create: active devices with this brand whose
      name matches, whatever their state. */
  function DuplicateProbe(body: DeviceInput): Filter {
    Filter(body.brand, "", body.name)
  }

  /** The row create writes: the requested fields, active, with the key and
      timestamp the store assigns. */
  function NewRecord(body: DeviceInput, freshId: Id, now: Timestamp): (d: Device)
    ensures d.id == freshId && d.createdAt == now && !d.deleted
    ensures d.name == body.name && d.brand == body.brand && d.state == body.state
  {
    Device(freshId, false, body.name, body.brand, now, body.state)
  }

  /** After an insert that the duplicate probe allowed, reading back with the
      stricter filter (brand, state and name) can only find the new row. */
  lemma RefetchFindsOnlyNew(s: Store, body: DeviceInput, m: NameMatcher, d: Device, s': Store)
    requires QueryActive(s, DuplicateProbe(body), m) == {}
    requires d.name == body.name && d.brand == body.brand && d.id !in s
    requires Insert(s, d) == Some(s')
    ensures QueryActive(s', Filter(d.brand, d.state, d.name), m) <= {d.id}
  {
  }

  /** POST /device.  Checks, in order: required fields, a valid state, no
      active device with the same brand and (matching) name; then inserts a
      row with a fresh key and creation time and reads it back with the
      request's brand, state and name. */
  function NewDevice(s: Store, body: DeviceInput, m: NameMatcher, freshId: Id, now: Timestamp): (r: Reply)
    // validation needs no store access, and rejects before any write
    ensures MissingRequired(body) ==> r == Reply(s, Failed(MissingFields))
    ensures !MissingRequired(body) && !IsValidState(body.state) ==> r == Reply(s, Failed(InvalidState))
    // the store refuses the duplicate probe when name or brand holds a NUL
    ensures r.outcome == Failed(QueryFailed) <==>
              !MissingRequired(body) && IsValidState(body.state) && (Nul in body.name || Nul in body.brand)
    // conflict exactly when the duplicate probe finds an active device
    ensures r.outcome == Failed(DuplicateDevice) <==>
              && !MissingRequired(body) && IsValidState(body.state) && Nul !in body.name && Nul !in body.brand
              && QueryActive(s, DuplicateProbe(body), m) != {}
    ensures r.outcome.Failed? && r.outcome.error != RefetchFailed ==> r.store == s
    // the store refuses a taken key or text a column refuses
    ensures r.outcome == Failed(InsertFailed) <==>
              && !MissingRequired(body) && IsValidState(body.state) && Nul !in body.name && Nul !in body.brand
              && QueryActive(s, DuplicateProbe(body), m) == {}
              && (freshId in s || StoredRow(NewRecord(body, freshId, now)).None?)
    // a changed store holds exactly one new row: the record as its columns keep it
    ensures r.store != s ==>
              && freshId !in s
              && StoredRow(NewRecord(body, freshId, now)).Some?
              && r.store == s[freshId := StoredRow(NewRecord(body, freshId, now)).value]
    ensures r.store != s <==> r.outcome.Created? || r.outcome == Failed(RefetchFailed)
    // success returns the stored row, the only one the read-back finds
    ensures r.outcome.Created? ==>
              && r.outcome.device == r.store[freshId]
              && QueryActive(r.store, Filter(body.brand, body.state, body.name), m) == {freshId}
    ensures r.outcome.Created? && FitsColumns(NewRecord(body, freshId, now)) ==> r.outcome.device == NewRecord(body, freshId, now)
    ensures Status(r.outcome) in {201, 400, 409, 500}
  {
    if MissingRequired(body) then Reply(s, Failed(MissingFields))
    else if !IsValidState(body.state) then Reply(s, Failed(InvalidState))
    else if QueryRejected(DuplicateProbe(body)) then Reply(s, Failed(QueryFailed))
    else if QueryActive(s, DuplicateProbe(body), m) != {} then Reply(s, Failed(DuplicateDevice))
    else
      var record := NewRecord(body, freshId, now);
      match Insert(s, record)
      case None => Reply(s, Failed(InsertFailed))
      case Some(s') =>
        var created := QueryActive(s', Filter(record.brand, record.state, record.name), m);
        if created == {} then Reply(s', Failed(RefetchFailed))
        else
          RefetchFindsOnlyNew(s, body, m, record, s');
          Reply(s', Created(s'[freshId]))
  }

  // ---------------------------------------------------------------- update

  /** A request field asks for a change when it is non-empty and differs. */
  predicate Changes(requested: string, stored: string) {
    requested != "" && requested != stored
  }

  /** Merge rule for one field: a non-empty request value overwrites. */
  function Overwrite(stored: string, requested: string): (v: string)
    ensures requested != "" ==> v == requested
    ensures requested == "" ==> v == stored
  {
    if requested != "" then requested else stored
  }

  predicate ChangesSomething(stored: Device, body: DeviceInput) {
    Changes(body.name, stored.name) || Changes(body.brand, stored.brand) || Changes(body.state, stored.state)
  }

  /** What the update handler decides for a looked-up record, before storage. */
  datatype UpdatePlan = Reject(error: ApiError) | Keep | Write(merged: Device)

  /** The update decision: the in-use freeze on the stored state first, then
      the no-change check, then the merge, and the state check last. */
  function PlanUpdate(stored: Device, body: DeviceInput): (plan: UpdatePlan)
    // frozen: stored state decides, whatever the requested state
    ensures (stored.state == InUse && (Changes(body.name, stored.name) || Changes(body.brand, stored.brand)))
              ==> plan == Reject(FrozenWhileInUse)
    ensures plan == Reject(FrozenWhileInUse) ==>
              stored.state == InUse && (Changes(body.name, stored.name) || Changes(body.brand, stored.brand))
    // nothing to change: keep the stored record
    ensures plan == Keep <==> !ChangesSomething(stored, body)
    // the state is checked only once a change is known and the record is not frozen
    ensures plan == Reject(InvalidState) <==>
              && ChangesSomething(stored, body)
              && plan != Reject(FrozenWhileInUse)
              && body.state != "" && !IsValidState(body.state)
    ensures plan.Reject? ==> plan.error in {FrozenWhileInUse, InvalidState}
    // the merge: each field from the request when non-empty, else stored
    ensures plan.Write? ==>
              && ChangesSomething(stored, body)
              && plan.merged.id == stored.id
              && plan.merged.createdAt == stored.createdAt
              && plan.merged.deleted == stored.deleted
              && plan.merged.name == Overwrite(stored.name, body.name)
              && plan.merged.brand == Overwrite(stored.brand, body.brand)
              && plan.merged.state == Overwrite(stored.state, body.state)
              && (body.state != "" ==> IsValidState(body.state))
  {
    if stored.state == InUse && (Changes(body.name, stored.name) || Changes(body.brand, stored.brand)) then
      Reject(FrozenWhileInUse)
    else if !ChangesSomething(stored, body) then
      Keep
    else
      var merged := stored.(name := Overwrite(stored.name, body.name), brand := Overwrite(stored.brand, body.brand));
      if body.state != "" then
        if !IsValidState(body.state) then Reject(InvalidState)
        else Write(merged.(state := body.state))
      else
        Write(merged)
  }

  /** PUT /device/{id}.  A failed lookup is a 500; otherwise the plan decides,
      and only a Write plan reaches the store. */
  function UpdateDevice(s: Store, id: Id, body: DeviceInput): (r: Reply)
    requires KeyedById(s)
    ensures FindActive(s, id).None? ==> r == Reply(s, Failed(LookupFailed))
    ensures FindActive(s, id).Some? ==>
              var stored := s[id];
              match PlanUpdate(stored, body)
              case Reject(e) => r == Reply(s, Failed(e))
              case Keep => r == Reply(s, Fetched(stored))
              case Write(merged) =>
                if StoredRow(merged).Some? then r.outcome == Fetched(merged) && r.store == s[id := StoredRow(merged).value]
                else r == Reply(s, Failed(WriteFailed))
    // the only record that can change is the one named
    ensures r.store.Keys == s.Keys
    ensures forall k :: k in s && k != id ==> r.store[k] == s[k]
    ensures r.outcome.Failed? ==> r.store == s
    // the reply is what a subsequent fetch returns, unless a column cut the text
    ensures r.outcome.Fetched? ==> FindActive(r.store, id).Some?
    ensures r.outcome.Fetched? && FitsColumns(r.outcome.device) ==> FindActive(r.store, id) == Some(r.outcome.device)
    ensures Status(r.outcome) in {200, 400, 500}
  {
    match FindActive(s, id)
    case None => Reply(s, Failed(LookupFailed))
    case Some(stored) =>
      match PlanUpdate(stored, body)
      case Reject(e) => Reply(s, Failed(e))
      case Keep => Reply(s, Fetched(stored))
      case Write(merged) =>
        match SaveActive(s, merged)
        case None => Reply(s, Failed(WriteFailed))
        case Some(s') => Reply(s', Fetched(merged))
  }

  // ---------------------------------------------------------------- read

  /** GET /device/{id}.  An unknown or deleted id is a 500. */
  function GetDeviceByID(s: Store, id: Id): (r: Reply)
    ensures r.store == s
    ensures r.outcome.Fetched? || r.outcome == Failed(LookupFailed)
    ensures r.outcome.Fetched? <==> id in s && !s[id].deleted
    ensures r.outcome.Fetched? ==> r.outcome.device == s[id]
    ensures Status(r.outcome) in {200, 500}
  {
    match FindActive(s, id)
    case None => Reply(s, Failed(LookupFailed))
    case Some(d) => Reply(s, Fetched(d))
  }

  /** GET /device with filters: the active records the filters select, or a
      500 when the store rejects the query.  Paging (limit and start) is not
      part of this model. */
  function GetDeviceByFilter(s: Store, f: Filter, m: NameMatcher): (r: Reply)
    ensures r.store == s
    ensures r.outcome == Failed(QueryFailed) <==>
              (f.state != "" && !IsValidState(f.state)) || Nul in f.brand || Nul in f.name
    ensures r.outcome.Listed? || r.outcome == Failed(QueryFailed)
    ensures r.outcome.Listed? ==> forall d :: d in r.outcome.devices ==> d in s.Values && Selects(f, m, d)
    ensures r.outcome.Listed? ==> forall id :: id in s && Selects(f, m, s[id]) ==> s[id] in r.outcome.devices
    ensures Status(r.outcome) in {200, 500}
  {
    if QueryRejected(f) then Reply(s, Failed(QueryFailed))
    else Reply(s, Listed(set id | id in QueryActive(s, f, m) :: s[id]))
  }

  // ---------------------------------------------------------------- delete

  /** DELETE /device/{id}.  A failed lookup is a 500, an in-use device is a
      400, anything else is soft-deleted. */
  function DeleteDevice(s: Store, id: Id): (r: Reply)
    ensures FindActive(s, id).None? ==> r == Reply(s, Failed(LookupFailed))
    ensures id in s && !s[id].deleted && s[id].state == InUse ==> r == Reply(s, Failed(DeleteWhileInUse))
    ensures r.outcome == NoContent <==> id in s && !s[id].deleted && s[id].state != InUse
    ensures r.outcome == NoContent ==> r.store == s[id := s[id].(deleted := true)]
    ensures r.outcome != NoContent ==> r.store == s
    ensures r.outcome.NoContent? || r.outcome.error in {LookupFailed, DeleteWhileInUse}
    ensures Status(r.outcome) in {204, 400, 500}
  {
    match FindActive(s, id)
    case None => Reply(s, Failed(LookupFailed))
    case Some(d) =>
      if d.state == InUse then Reply(s, Failed(DeleteWhileInUse))
      else
        match SoftDelete(s, id)
        case None => Reply(s, Failed(WriteFailed))
        case Some(s') => Reply(s', NoContent)
  }
}
